=== FILE: README.md ===
# iCloud to Google Calendar sync, modelled in Dafny

This project models the reconciliation core of a one-way calendar mirror.
Each run does four things:

- it reads, over CalDAV, the events of each iCloud calendar in a search window that runs 365 days from the start date (each occurrence of a recurring event comes back as its own entry, with the event's uid);
- it normalises each event into a flat record with an MD5 fingerprint of its content;
- it compares the fetched snapshot with a persisted map `uid -> {google_id, hash}`;
- it then applies one create, update or delete to Google Calendar per differing uid, in a single pass.

A write the Google service refuses is counted as an error and is not retried within
the run. The stored map is changed only by writes that succeed, so the next run
retries whatever failed.

The model is functional. Stored state, the snapshot and the Google calendar are
immutable maps. The three apply loops are folds over the create, update and
delete sets. Python iterates a set in no particular order, so a `Plan` supplies
the order, and every statement holds for every order. The Google service's
answers come from an `Oracle` (the reply to an insert, the HTTP status that
refuses an update or a delete), and every statement holds for every oracle.
MD5 is a parameter `md5: string -> string`, so the fingerprint results hold for
any digest function; the one result that needs collision freedom says so.

Modules:

- `Wrappers`: `Option` and `Result`.
- `Seqs`: a sequence that enumerates a set.
- `ICloud` (icloud_calendar.py): normalisation, the fingerprint and `get_events`.
- `Google` (google_calendar.py): event conversion and the three write calls over a calendar map.
- `Store`: the state file default and `get_sync_status`.
- `Diff`: the snapshot dictionary and the three sets.
- `Engine` (sync_engine.py): one write, the three phases, `sync`, and the run-level properties.

Three behaviours of the code are easy to miss, and the model keeps them as written:

- `unchanged` is the list length minus the *successful* creates and updates, not minus the sizes of the create and update sets (see Findings).
- A calendar whose search raises is skipped. Its events then look deleted, instead of the run being aborted (`Engine.OutageDeletesEverything`).
- `last_sync` is stamped even when writes failed.

## Model

| member | source | states |
|---|---|---|
| ICloud.Normalise | icloud_calendar.py:94-157 | A VEVENT gives no record exactly when it has no start, or its start is a date-time and its end a date (asking a date for its time zone raises, and the exception is caught). Otherwise: uid defaults to "", summary to 无标题; a present description and location are kept, an absent one becomes ""; all-day holds exactly when the start is a date; a missing end becomes the start; the calendar name and last-modified stamp are carried over; the hash is the fingerprint of the content fields. |
| ICloud.NormaliseRoundTrip | icloud_calendar.py:97-153 | Writing a record back as a component and normalising it returns the same record exactly when its hash is the fingerprint of its own fields. |
| ICloud.NormaliseIdempotent | icloud_calendar.py:97-153 | Normalising an already normalised record changes nothing. |
| ICloud.FingerprintIgnoresMetadata | icloud_calendar.py:129-140 | Components that differ only in last-modified, read from calendars with different names, either both give no record or both give records with the same fingerprint. |
| ICloud.HashContent | icloud_calendar.py:161-164 | The text that is digested: uid, summary, description, location, start, end and `str(is_all_day)`, joined by `\|`. |
| ICloud.HashContentLayout | icloud_calendar.py:164 | The joined text is the seven fields written one after another with a `\|` between neighbours, as the f-string writes them. |
| ICloud.Fingerprint | icloud_calendar.py:161-165 | The record's hash: the digest of the joined text. |
| ICloud.JoinInjective | icloud_calendar.py:164 | Joining fields with `\|` is injective when no field contains `\|`. |
| ICloud.HashContentInjective | icloud_calendar.py:161-165 | For separator-free fields, two records give the same hash input exactly when uid, summary, description, location, start, end and the all-day flag all agree. |
| ICloud.FingerprintDetectsChange | icloud_calendar.py:161-165 | With a collision-free digest, two well-hashed, separator-free records have equal hashes exactly when their seven content fields agree. |
| ICloud.SeparatorInFieldCollides | icloud_calendar.py:164 | The separator is not escaped: moving a `\|` across a field boundary leaves the hash input unchanged. |
| ICloud.FirstEvent | icloud_calendar.py:94-95 | Returns nothing exactly when no component is a VEVENT; otherwise it returns the first VEVENT in walk order. |
| ICloud.ParseResource | icloud_calendar.py:89-159 | A resource gives a record exactly when it parses, holds a VEVENT, and its first VEVENT yields one (it has a start, and not a date-time start with a date end). That record is the normalisation of the first VEVENT: well hashed and carrying the calendar name. |
| ICloud.ParseAll | icloud_calendar.py:73-80 | One calendar gives at most one record per resource, each well hashed and named after the calendar. |
| ICloud.ParseAllMembers | icloud_calendar.py:73-80 | Every record of a calendar is the record of one of its resources, and every resource that yields a record contributes it. |
| ICloud.GetEvents | icloud_calendar.py:59-87 | Every fetched record is well hashed and carries the name of a calendar whose search succeeded, and every record of every calendar whose search succeeded is in the list. |
| ICloud.GetEventsSources | icloud_calendar.py:73-84 | Every fetched record is one of the parsed records of a calendar whose search succeeded. |
| ICloud.FailedCalendarLooksEmpty | icloud_calendar.py:82-84 | A calendar whose search raised contributes exactly what an empty calendar would. |
| ICloud.AllFetchesFailed | icloud_calendar.py:62-87 | When every search raises, the fetched list is empty. |
| ICloud.SearchWindow | icloud_calendar.py:56-57 | Without an end, the window runs 365 days from the start; with one, it ends there. |
| Google.Prefix | google_calendar.py:233-234 | Python's `s[:n]`: a prefix of `s` of length min(\|s\|, n). |
| Google.Convert | google_calendar.py:216-245 | Summary is copied. Description, location, hash and calendar name default to "". The uid goes into the private metadata. All-day events get `Prefix(start, 10)` and `Prefix(end, 10)`, the first 10 characters, as dates; other events get start and end verbatim, tagged Asia/Shanghai. |
| Google.ConvertRoundTrip | google_calendar.py:231-243 | Reading a converted event back recovers the record exactly when it is not an all-day event whose start or end is longer than 10 characters. |
| Google.CreateEvent | google_calendar.py:101-127 | Raises exactly when not connected. An HTTP error returns no id and changes nothing. Otherwise the returned id is the one the service assigned, the converted event is stored under it, and no other event changes. |
| Google.UpdateEvent | google_calendar.py:129-156 | Raises exactly when not connected. Succeeds exactly when there is no fault and the id exists. On success only that event is replaced; on failure nothing changes. |
| Google.DeleteEvent | google_calendar.py:158-185 | Raises exactly when not connected. Reports success exactly when there is no fault or the status is 404. Without a fault the id is removed and nothing else changes; with one, nothing changes. |
| Google.DeleteTwice | google_calendar.py:171-185 | Deleting the same id twice succeeds both times, and the second delete changes nothing. |
| Store.LoadState | sync_engine.py:23-35 | A stored state is returned as is. A missing or unreadable file gives no records and no last run. |
| Store.SaveState | sync_engine.py:37-43 | A successful save leaves a file holding the state. |
| Store.LoadAfterSave | sync_engine.py:23-43 | A saved state loads back unchanged. |
| Store.Status | sync_engine.py:165-170 | The status count is the number of records, and the last run is the stored one. |
| Store.StatusWithoutStateFile | sync_engine.py:32-35 | Without a readable state file, the status shows 0 events and no last run. |
| Diff.Snapshot | sync_engine.py:64 | Every listed uid is a key. Each key maps to a listed event with that uid. There are at most as many keys as list entries. |
| Diff.LastOccurrenceWins | sync_engine.py:64 | A uid maps to its last occurrence in the list. |
| Diff.SnapshotSize | sync_engine.py:64 | The dictionary has one entry per list element exactly when no uid repeats. |
| Diff.CreateSet | sync_engine.py:140-151 | The snapshot's uids that have no stored record. |
| Diff.UpdateSet | sync_engine.py:140-151 | The snapshot's uids that have a stored record whose hash differs from the snapshot event's. |
| Diff.DeleteSet | sync_engine.py:153-163 | The stored uids less the snapshot's uids. |
| Diff.SetsFromKeys | sync_engine.py:140-163 | The create set is the snapshot's keys less the stored keys. The update set is the keys in both less the unchanged ones. The delete set misses the snapshot, and with the stored keys that the snapshot holds it makes up all stored keys. |
| Diff.DiffPartition | sync_engine.py:133-163 | The create, update and unchanged sets partition the snapshot's uids. The create set is disjoint from the stored uids. The delete set is disjoint from the snapshot and from both other sets. |
| Diff.NothingToDoIffConverged | sync_engine.py:140-163 | All three sets are empty exactly when the stored uids are the snapshot's uids and every stored hash is the snapshot event's hash. |
| Diff.UnchangedCount | sync_engine.py:113 | The intended `unchanged`: the number of snapshot uids that need no write. |
| Engine.CreateOne | sync_engine.py:81-91 | Raises exactly when not connected. A truthy id records `{google_id, hash}` for the uid, with `google_id` the id the insert returned, and counts a create; anything else counts an error and leaves the records unchanged. The error count stays the same exactly when the insert returned a non-empty id. |
| Engine.UpdateOne | sync_engine.py:94-101 | On success only the uid's hash is replaced (the Google id and other records are kept) and an update is counted. On failure an error is counted and the records stay the same. Success happens exactly when there is no fault and the Google event exists. |
| Engine.DeleteOne | sync_engine.py:104-110 | On success exactly that uid's record is removed and a delete is counted. On failure an error is counted and the record stays. Success happens exactly when there is no fault or the status is 404. |
| Engine.FailedCreateRetried | sync_engine.py:83-91 | After a refused create the uid is still in the create set. |
| Engine.FailedUpdateRetried | sync_engine.py:97-101 | After a refused update the uid is still in the update set. |
| Engine.FailedDeleteRetried | sync_engine.py:106-110 | After a refused delete the uid is still in the delete set. |
| Engine.CreatesFollowOracle | sync_engine.py:81-91 | After the create phase, a uid of the order has a record exactly when its insert returned a truthy id, and the record's Google id is that id. No Google event is lost. |
| Engine.UpdatesFollowOracle | sync_engine.py:94-101 | After the update phase, a uid of the order holds the snapshot's hash exactly when its update met no fault and its Google event existed. The calendar's ids do not change. |
| Engine.DeletesFollowOracle | sync_engine.py:104-110 | After the delete phase, a uid of the order keeps its record exactly when its delete met a fault other than 404. |
| Engine.ApplyCreates | sync_engine.py:81-91 | Raises exactly when not connected and there is work to do. Only new uids of the order are added, each with the snapshot's hash. Each write is counted once. Each create removes one uid from the create set. |
| Engine.ApplyUpdates | sync_engine.py:94-101 | Raises exactly when not connected and there is work to do. The stored uids and Google ids are kept. Only uids of the order change, and a changed record takes the snapshot's hash. Each write is counted once. Each update removes one uid from the update set. |
| Engine.ApplyDeletes | sync_engine.py:104-110 | Raises exactly when not connected and there is work to do. Only uids of the order are removed, and no record changes. Each write is counted once. Each delete removes one uid from the delete set. |
| Engine.ApplyPlan | sync_engine.py:80-110 | Raises exactly when not connected and the plan is non-empty. The counters sum to the plan's size. The next run's sets are subsets of this run's, each smaller by its phase's successes. |
| Engine.PlanCreatesFollowOracle | sync_engine.py:80-91 | After a run, a uid that needed a create still needs one exactly when its insert gave no truthy id, whatever happened to the other uids. |
| Engine.PlanUpdatesFollowOracle | sync_engine.py:80-101 | After a run, a uid that needed an update still needs one if its update met a fault, and no longer needs one if it met none and its Google event existed before the run. |
| Engine.PlanDeletesFollowOracle | sync_engine.py:80-110 | After a run, a uid that needed a delete still needs one exactly when its delete met a fault other than 404. |
| Engine.PlanAccounting | sync_engine.py:55-110 | created + updated + deleted + errors equals \|create\| + \|update\| + \|delete\|, and no phase counts more successes than its set has uids. |
| Engine.Sync | sync_engine.py:45-131 | Raises exactly when not connected and there is something to write. `last_sync` is always stamped. The counters sum to the sizes of the three sets and each success count is at most its set's size. `unchanged` is the list length less created and updated, and is never negative. |
| Engine.ResidualWorkIsErrors | sync_engine.py:80-110 | After a run, the next run's create, update and delete sets are subsets of this run's, and their sizes sum to this run's error count. |
| Engine.Convergence | sync_engine.py:64-110 | A run without errors leaves exactly the snapshot's uids stored, each with the snapshot event's hash. |
| Engine.ApplyEmptyPlan | sync_engine.py:80-110 | An empty plan changes nothing and cannot raise. |
| Engine.PlanEmptyWhenConverged | sync_engine.py:133-163 | When the records already mirror the snapshot, every plan is empty. |
| Engine.QuietWhenConverged | sync_engine.py:64-118 | On records that already mirror the snapshot, a run writes nothing and cannot raise. It reports 0/0/0, `unchanged` equal to the list length and no errors, and only stamps the time. |
| Engine.SecondRunIsQuiet | sync_engine.py:64-118 | After a run without errors, a second run on the same list succeeds, creates, updates and deletes nothing, and keeps the records. |
| Engine.UnchangedWithoutErrors | sync_engine.py:113 | With distinct uids and no errors, the reported `unchanged` equals the intended count. |
| Engine.ReportedUnchanged | sync_engine.py:113 | The reported figure exceeds the intended count by the repeated list entries plus the refused creates and updates. The two agree exactly when the uids are distinct and every create and update succeeded. |
| Engine.UnchangedCountsFailedWrites | sync_engine.py:81-113 | One new event whose insert is refused is reported as 1 unchanged, where the intended count is 0. |
| Engine.UnchangedCountsRepeatedUids | sync_engine.py:64-113 | A uid listed twice makes the reported `unchanged` larger than the intended count on every run. |
| Engine.EmptyListDeletesEverything | sync_engine.py:153-163 | A run on an empty list without errors reports one delete per record and forgets every record. |
| Engine.OutageDeletesEverything | icloud_calendar.py:62-87 | When every calendar search fails, a run without errors plans no creates or updates, reports one delete per record and forgets every record. |

## Left out

- OAuth, the token file and `GoogleCalendar.connect`: network and filesystem plumbing. A client is connected or not.
- The CalDAV connection, `get_calendars`, `date_search` and `Calendar.from_ical`: foreign library calls. A calendar is given as its parsed resources, or as a failed search.
- The MD5 digest itself: the model takes it as the parameter `md5`.
- Attaching the local time zone and rendering instants with `isoformat`: timestamps are taken as the strings they render to.
- The JSON encoding of the state file, and the crash safety of its save: a save is the state itself; a load is the state, or the empty default when the file is missing or does not parse.
- A state file that parses but lacks the `events` key: the source then raises `KeyError` during the run; this model does not represent it.
- `get_events` and `find_event_by_icloud_uid` on the Google side: the engine does not use them.
- Exceptions from the Google client other than `HttpError` (a dropped connection, say): they would abort the run and are not modelled. Refusals are the `HttpError`s the oracle supplies.
- Google.CreateEvent: a successful insert whose response lacks an `id` returns `None` in the source. The model gives the empty id instead (an oracle reply `Ok("")`), which the engine likewise treats as a failed create; the Google copy is then filed under that id.
- ICloud.ParseAll: the order of the records (resource order) is not stated; `ICloud.ParseAllMembers` states which records are kept.
- Engine.PlanUpdatesFollowOracle: it is two implications, not an iff. It does not cover a uid with no fault whose Google id was missing before the run but was assigned to an event inserted during the run's create phase; whether that update succeeds depends on that insert.
- Google.DeleteTwice: the modelled service answers 404 for an id it no longer holds. Google Calendar may instead answer 410 Gone for an event already deleted, which `delete_event` counts as a failure (google_calendar.py:180-185). An oracle can supply `Some(410)`, but `DeleteTwice` assumes the 404 answer.
- main.py (argument parsing, signal handling, the sleep loop) and config.example.py (constants).
- Saving the state file (sync_engine.py:37-43, 118): `Engine.Sync` returns the new state and does not write it. In the source a failed write is only printed, so the file can keep the previous state; the model does not represent that failure.
- `print` logging, and the `datetime.now()` stamp, which is the parameter `now` of `Engine.Sync`.

## Findings

| source | as written | input that shows it | evidently intended | confidence | as-written member | corrected member |
|---|---|---|---|---|---|---|
| sync_engine.py:113 | `unchanged` is the raw list length minus the successful creates and updates | one new event whose insert the service refuses: reported 1 unchanged, although it needed a create; or the same new event listed twice and created once: reported 1 unchanged | the number of snapshot events that needed no write, i.e. the snapshot size less the create and update sets | medium, not executed | Engine.UnchangedCountsFailedWrites | Diff.UnchangedCount |

=== FILE: diff.dfy ===
/** The change detection of the engine (sync_engine.py): the snapshot
    dictionary built from the fetched list, and the create, update and
    delete sets computed against the stored records. */
module Diff {
  import opened ICloud
  import opened Store

  /** The dictionary `{event['uid']: event for event in events}`: keyed by
      uid, a later occurrence of a uid replacing an earlier one. */
  function Snapshot(raw: seq<Event>): (snap: map<string, Event>)
    ensures forall i | 0 <= i < |raw| :: raw[i].uid in snap
    ensures forall u | u in snap :: snap[u].uid == u && snap[u] in raw
    ensures |snap| <= |raw|
  {
    if |raw| == 0 then map[]
    else
      var last := raw[|raw| - 1];
      var init := Snapshot(raw[..|raw| - 1]);
      assert forall i | 0 <= i < |raw| - 1 :: raw[i] == raw[..|raw| - 1][i];
      init[last.uid := last]
  }

  /** The value kept for a uid is its last occurrence in the list. */
  lemma {:induction false} LastOccurrenceWins(raw: seq<Event>, i: nat)
    requires i < |raw|
    requires forall j | i < j < |raw| :: raw[j].uid != raw[i].uid
    ensures Snapshot(raw)[raw[i].uid] == raw[i]
  {
    if i < |raw| - 1 {
      var init := raw[..|raw| - 1];
      assert init[i] == raw[i];
      LastOccurrenceWins(init, i);
    }
  }

  /** No uid occurs twice in the list. */
  predicate DistinctUids(raw: seq<Event>) {
    forall i, j | 0 <= i < j < |raw| :: raw[i].uid != raw[j].uid
  }

  /** A list is free of repeated uids exactly when its prefix is and its
      last uid is new. */
  lemma DistinctUidsSnoc(raw: seq<Event>)
    requires |raw| > 0
    ensures DistinctUids(raw) <==>
      DistinctUids(raw[..|raw| - 1]) && forall k | 0 <= k < |raw| - 1 :: raw[k].uid != raw[|raw| - 1].uid
  {
  }

  /** The last uid is already a key of the prefix's dictionary exactly when
      it occurs earlier in the list. */
  lemma LastUidSeenBefore(raw: seq<Event>)
    requires |raw| > 0
    ensures raw[|raw| - 1].uid in Snapshot(raw[..|raw| - 1])
        <==> exists k | 0 <= k < |raw| - 1 :: raw[k].uid == raw[|raw| - 1].uid
  {
    var init := raw[..|raw| - 1];
    var u := raw[|raw| - 1].uid;
    if u in Snapshot(init) {
      var k :| 0 <= k < |init| && init[k] == Snapshot(init)[u];
      assert raw[k].uid == u;
    } else {
      forall k | 0 <= k < |raw| - 1 ensures raw[k].uid != u {
        assert init[k] == raw[k];
      }
    }
  }

  /** Without repeated uids the dictionary has one entry per list element;
      with one, it has fewer. */
  lemma {:induction false} SnapshotSize(raw: seq<Event>)
    ensures |Snapshot(raw)| == |raw| <==> DistinctUids(raw)
  {
    if |raw| > 0 {
      var init := raw[..|raw| - 1];
      SnapshotSize(init);
      DistinctUidsSnoc(raw);
      LastUidSeenBefore(raw);
    }
  }

  /** Uids of the snapshot the state has never mirrored. */
  function CreateSet(snap: map<string, Event>, records: map<string, Record>): set<string> {
    set u | u in snap && u !in records
  }

  /** Uids mirrored before whose stored fingerprint differs from the
      snapshot's. */
  function UpdateSet(snap: map<string, Event>, records: map<string, Record>): set<string> {
    set u | u in snap && u in records && records[u].hash != snap[u].hash
  }

  /** Uids mirrored before that the snapshot no longer holds. */
  function DeleteSet(snap: map<string, Event>, records: map<string, Record>): set<string> {
    records.Keys - snap.Keys
  }

  /** Uids mirrored before whose fingerprint is the same. */
  function UnchangedSet(snap: map<string, Event>, records: map<string, Record>): set<string> {
    set u | u in snap && u in records && records[u].hash == snap[u].hash
  }

  /** The records mirror the snapshot: the same uids, and every stored
      fingerprint is the snapshot event's. */
  predicate Converged(records: map<string, Record>, snap: map<string, Event>) {
    && records.Keys == snap.Keys
    && forall u | u in records :: records[u].hash == snap[u].hash
  }

  /** The three sets in terms of the two key sets: the create set is the
      snapshot's uids not stored, the update set the uids in both whose
      fingerprint changed, and the delete set the stored uids outside the
      snapshot. */
  lemma SetsFromKeys(snap: map<string, Event>, records: map<string, Record>)
    ensures CreateSet(snap, records) == snap.Keys - records.Keys
    ensures UpdateSet(snap, records) == snap.Keys * records.Keys - UnchangedSet(snap, records)
    ensures DeleteSet(snap, records) !! snap.Keys
    ensures DeleteSet(snap, records) + records.Keys * snap.Keys == records.Keys
  {
  }

  /** The create, update and unchanged sets split the snapshot's uids; the
      delete set lies outside the snapshot; new uids are not in the state. */
  lemma DiffPartition(snap: map<string, Event>, records: map<string, Record>)
    ensures CreateSet(snap, records) !! records.Keys
    ensures CreateSet(snap, records) !! UpdateSet(snap, records)
    ensures DeleteSet(snap, records) !! snap.Keys
    ensures DeleteSet(snap, records) !! CreateSet(snap, records)
    ensures DeleteSet(snap, records) !! UpdateSet(snap, records)
    ensures CreateSet(snap, records) + UpdateSet(snap, records) + UnchangedSet(snap, records) == snap.Keys
    ensures |CreateSet(snap, records)| + |UpdateSet(snap, records)| + |UnchangedSet(snap, records)| == |snap|
  {
  }

  /** Nothing is left to do exactly when the records mirror the snapshot. */
  lemma NothingToDoIffConverged(snap: map<string, Event>, records: map<string, Record>)
    ensures CreateSet(snap, records) == {} && UpdateSet(snap, records) == {} && DeleteSet(snap, records) == {}
        <==> Converged(records, snap)
  {
    if CreateSet(snap, records) == {} && UpdateSet(snap, records) == {} && DeleteSet(snap, records) == {} {
      forall u | u in snap ensures u in records {
        assert u !in CreateSet(snap, records);
      }
      forall u | u in records ensures u in snap && records[u].hash == snap[u].hash {
        assert u !in DeleteSet(snap, records);
        assert u !in UpdateSet(snap, records);
      }
    }
  }

  /** The number of snapshot events that need no write: the snapshot's size
      less the create and update sets. */
  function UnchangedCount(snap: map<string, Event>, records: map<string, Record>): (n: nat)
    ensures n == |UnchangedSet(snap, records)|
  {
    DiffPartition(snap, records);
    |snap| - |CreateSet(snap, records)| - |UpdateSet(snap, records)|
  }
}

=== FILE: engine.dfy ===
/** The reconciliation run of the engine (`SyncEngine.sync` in
    sync_engine.py): build the snapshot, compute the three sets, then apply
    the creates, the updates and the deletes in that order, changing the
    stored records only after a write succeeds and counting every refused
    write as an error.

    Python iterates each set in an unspecified order; a `Plan` names the
    order, and every statement holds for every order. What the Google
    service answers is fixed by an `Oracle`, and every statement holds for
    every oracle. */
module Engine {
  import opened Wrappers
  import opened Seqs
  import opened ICloud
  import Google
  import opened Store
  import opened Diff

  /** The Google service's answers during one run, by the iCloud uid being
      written: the reply to an insert, and the HTTP status that refuses an
      update or a delete (`None` when the service does not refuse). */
  datatype Oracle = Oracle(
    insert: string -> Google.Reply<string>,
    updateFault: string -> Option<int>,
    deleteFault: string -> Option<int>)

  datatype Counters = Counters(created: nat, updated: nat, deleted: nat, errors: nat)

  /** Everything a run changes: the stored records, the Google calendar and
      the counters. */
  datatype World = World(events: map<string, Record>, client: Google.Client, counts: Counters)

  /** The iteration orders of the create, update and delete sets. */
  datatype Plan = Plan(create: seq<string>, update: seq<string>, delete: seq<string>)

  /** The statistics `sync` returns. */
  datatype Stats = Stats(created: nat, updated: nat, deleted: nat, unchangedCount: int, errors: nat)

  /** The result of a run that did not raise. */
  datatype Run = Run(stats: Stats, state: State, client: Google.Client)

  // ---------------------------------------------------------------------
  // One write

  /** Create the Google copy of `e` for uid `u`; record it only when the
      returned id is truthy (present and non-empty). */
  function CreateOne(w: World, u: string, e: Event, o: Oracle): (r: Result<World, Google.Raised>)
    ensures r.Failure? <==> !w.client.connected
    ensures r.Success? ==> r.value.client.connected
    ensures r.Success? ==>
      var w' := r.value;
      || (&& w'.counts == w.counts.(created := w.counts.created + 1)
          && o.insert(u).Ok?
          && u in w'.events
          && w'.events[u].googleId == o.insert(u).value
          && w'.events == w.events[u := Record(w'.events[u].googleId, e.hash)]
          && w'.events[u].googleId in w'.client.calendar
          && w'.client.calendar[w'.events[u].googleId] == Google.Convert(Google.FromEvent(e)))
      || (&& w'.counts == w.counts.(errors := w.counts.errors + 1)
          && w'.events == w.events)
    ensures r.Success? ==>
      (r.value.counts.errors == w.counts.errors <==> o.insert(u).Ok? && o.insert(u).value != "")
    ensures r.Success? ==> w.client.calendar.Keys <= r.value.client.calendar.Keys
  {
    var ins :- Google.CreateEvent(w.client, Google.FromEvent(e), o.insert(u));
    if ins.id.Some? && ins.id.value != "" then
      Success(World(w.events[u := Record(ins.id.value, e.hash)], ins.client,
                    w.counts.(created := w.counts.created + 1)))
    else
      Success(World(w.events, ins.client, w.counts.(errors := w.counts.errors + 1)))
  }

  /** Rewrite the Google copy of uid `u` with `e`; on success store the new
      fingerprint and nothing else. */
  function UpdateOne(w: World, u: string, e: Event, o: Oracle): (r: Result<World, Google.Raised>)
    requires u in w.events
    ensures r.Failure? <==> !w.client.connected
    ensures r.Success? ==> r.value.client.connected
    ensures r.Success? ==>
      var w' := r.value;
      || (&& w'.counts == w.counts.(updated := w.counts.updated + 1)
          && w'.events == w.events[u := w.events[u].(hash := e.hash)]
          && w.events[u].googleId in w'.client.calendar
          && w'.client.calendar[w.events[u].googleId] == Google.Convert(Google.FromEvent(e)))
      || (&& w'.counts == w.counts.(errors := w.counts.errors + 1)
          && w'.events == w.events)
    ensures r.Success? ==>
      var ok := o.updateFault(u).None? && w.events[u].googleId in w.client.calendar;
      (r.value.counts.errors == w.counts.errors <==> ok)
    ensures r.Success? ==> r.value.client.calendar.Keys == w.client.calendar.Keys
  {
    var res :- Google.UpdateEvent(w.client, w.events[u].googleId, Google.FromEvent(e), o.updateFault(u));
    if res.ok then
      Success(World(w.events[u := w.events[u].(hash := e.hash)], res.client,
                    w.counts.(updated := w.counts.updated + 1)))
    else
      Success(World(w.events, res.client, w.counts.(errors := w.counts.errors + 1)))
  }

  /** Delete the Google copy of uid `u`; on success forget its record. */
  function DeleteOne(w: World, u: string, o: Oracle): (r: Result<World, Google.Raised>)
    requires u in w.events
    ensures r.Failure? <==> !w.client.connected
    ensures r.Success? ==> r.value.client.connected
    ensures r.Success? ==>
      var w' := r.value;
      || (w'.counts == w.counts.(deleted := w.counts.deleted + 1) && w'.events == w.events - {u})
      || (w'.counts == w.counts.(errors := w.counts.errors + 1) && w'.events == w.events)
    ensures r.Success? ==>
      var ok := o.deleteFault(u).None? || o.deleteFault(u).value == Google.NotFound;
      (r.value.counts.errors == w.counts.errors <==> ok)
    ensures r.Success? && o.deleteFault(u).None? ==> w.events[u].googleId !in r.value.client.calendar
  {
    var res :- Google.DeleteEvent(w.client, w.events[u].googleId, o.deleteFault(u));
    if res.ok then
      Success(World(w.events - {u}, res.client, w.counts.(deleted := w.counts.deleted + 1)))
    else
      Success(World(w.events, res.client, w.counts.(errors := w.counts.errors + 1)))
  }

  // ---------------------------------------------------------------------
  // What a phase achieves

  /** The create phase over `order` took `w` to `r`: only new uids of
      `order` were added, each with the snapshot's fingerprint; every write
      is counted once; and each created record shrinks the create set. */
  ghost predicate CreatesDone(w: World, r: World, order: seq<string>, snap: map<string, Event>) {
    && r.client.connected == w.client.connected
    && r.counts.updated == w.counts.updated && r.counts.deleted == w.counts.deleted
    && r.counts.created >= w.counts.created
    && r.counts.created + r.counts.errors == w.counts.created + w.counts.errors + |order|
    && (forall v | v in w.events :: v in r.events && r.events[v] == w.events[v])
    && (forall v | v in r.events :: v in w.events || v in order)
    && (forall v | v in order && v in r.events :: v in snap && r.events[v].hash == snap[v].hash)
    && |CreateSet(snap, r.events)| + (r.counts.created - w.counts.created) == |CreateSet(snap, w.events)|
  }

  /** The update phase over `order` took `w` to `r`: the uids and Google ids
      are those of `w`; only uids of `order` changed, each to the old or the
      snapshot's fingerprint; every write is counted once; and each stored
      fingerprint shrinks the update set. */
  ghost predicate UpdatesDone(w: World, r: World, order: seq<string>, snap: map<string, Event>) {
    && r.client.connected == w.client.connected
    && r.counts.created == w.counts.created && r.counts.deleted == w.counts.deleted
    && r.counts.updated >= w.counts.updated
    && r.counts.updated + r.counts.errors == w.counts.updated + w.counts.errors + |order|
    && r.events.Keys == w.events.Keys
    && (forall v | v in w.events :: r.events[v].googleId == w.events[v].googleId)
    && (forall v | v in w.events && v !in order :: r.events[v] == w.events[v])
    && (forall v | v in order && v in w.events ::
          v in snap && (r.events[v].hash == w.events[v].hash || r.events[v].hash == snap[v].hash))
    && |UpdateSet(snap, r.events)| + (r.counts.updated - w.counts.updated) == |UpdateSet(snap, w.events)|
  }

  /** The delete phase over `order` took `w` to `r`: only uids of `order`
      were removed and no record changed; every write is counted once; and
      each removed record shrinks the delete set. */
  ghost predicate DeletesDone(w: World, r: World, order: seq<string>, snap: map<string, Event>) {
    && r.client.connected == w.client.connected
    && r.counts.created == w.counts.created && r.counts.updated == w.counts.updated
    && r.counts.deleted >= w.counts.deleted
    && r.counts.deleted + r.counts.errors == w.counts.deleted + w.counts.errors + |order|
    && (forall v | v in r.events :: v in w.events && r.events[v] == w.events[v])
    && (forall v | v in w.events && v !in order :: v in r.events)
    && |DeleteSet(snap, r.events)| + (r.counts.deleted - w.counts.deleted) == |DeleteSet(snap, w.events)|
  }

  lemma CreateOneDone(w: World, u: string, snap: map<string, Event>, o: Oracle)
    requires u in CreateSet(snap, w.events)
    requires CreateOne(w, u, snap[u], o).Success?
    ensures CreatesDone(w, CreateOne(w, u, snap[u], o).value, [u], snap)
  {
    var w' := CreateOne(w, u, snap[u], o).value;
    if w'.counts.created == w.counts.created + 1 {
      assert CreateSet(snap, w'.events) == CreateSet(snap, w.events) - {u};
    } else {
      assert w'.events == w.events;
    }
  }

  lemma UpdateOneDone(w: World, u: string, snap: map<string, Event>, o: Oracle)
    requires u in UpdateSet(snap, w.events)
    requires UpdateOne(w, u, snap[u], o).Success?
    ensures UpdatesDone(w, UpdateOne(w, u, snap[u], o).value, [u], snap)
  {
    var w' := UpdateOne(w, u, snap[u], o).value;
    if w'.counts.updated == w.counts.updated + 1 {
      assert UpdateSet(snap, w'.events) == UpdateSet(snap, w.events) - {u};
    } else {
      assert w'.events == w.events;
    }
  }

  lemma DeleteOneDone(w: World, u: string, snap: map<string, Event>, o: Oracle)
    requires u in DeleteSet(snap, w.events)
    requires DeleteOne(w, u, o).Success?
    ensures DeletesDone(w, DeleteOne(w, u, o).value, [u], snap)
  {
    var w' := DeleteOne(w, u, o).value;
    if w'.events == w.events - {u} && w'.counts == w.counts.(deleted := w.counts.deleted + 1) {
      assert DeleteSet(snap, w'.events) == DeleteSet(snap, w.events) - {u};
    } else {
      assert w'.events == w.events && w'.counts == w.counts.(errors := w.counts.errors + 1);
    }
  }

  /** A refused insert leaves the uid in the create set, so the next run
      tries it again. */
  lemma FailedCreateRetried(w: World, u: string, snap: map<string, Event>, o: Oracle)
    requires u in CreateSet(snap, w.events)
    requires CreateOne(w, u, snap[u], o).Success?
    requires CreateOne(w, u, snap[u], o).value.counts.errors > w.counts.errors
    ensures u in CreateSet(snap, CreateOne(w, u, snap[u], o).value.events)
  {
  }

  /** A refused update leaves the uid in the update set. */
  lemma FailedUpdateRetried(w: World, u: string, snap: map<string, Event>, o: Oracle)
    requires u in UpdateSet(snap, w.events)
    requires UpdateOne(w, u, snap[u], o).Success?
    requires UpdateOne(w, u, snap[u], o).value.counts.errors > w.counts.errors
    ensures u in UpdateSet(snap, UpdateOne(w, u, snap[u], o).value.events)
  {
  }

  /** A refused delete keeps the record, so the uid is in the next run's
      delete set. */
  lemma FailedDeleteRetried(w: World, u: string, snap: map<string, Event>, o: Oracle)
    requires u in DeleteSet(snap, w.events)
    requires DeleteOne(w, u, o).Success?
    requires DeleteOne(w, u, o).value.counts.errors > w.counts.errors
    ensures u in DeleteSet(snap, DeleteOne(w, u, o).value.events)
  {
  }

  /** One create followed by the creates of the rest is the create phase over the whole order. */
  lemma CreatesCompose(w: World, m: World, r: World, order: seq<string>, snap: map<string, Event>)
    requires |order| > 0 && order[0] !in order[1..]
    requires CreatesDone(w, m, [order[0]], snap) && CreatesDone(m, r, order[1..], snap)
    ensures CreatesDone(w, r, order, snap)
  {
  }

  /** One update followed by the updates of the rest is the update phase over the whole order. */
  lemma UpdatesCompose(w: World, m: World, r: World, order: seq<string>, snap: map<string, Event>)
    requires |order| > 0 && order[0] !in order[1..]
    requires UpdatesDone(w, m, [order[0]], snap) && UpdatesDone(m, r, order[1..], snap)
    ensures UpdatesDone(w, r, order, snap)
  {
  }

  /** One delete followed by the deletes of the rest is the delete phase over the whole order. */
  lemma DeletesCompose(w: World, m: World, r: World, order: seq<string>, snap: map<string, Event>)
    requires |order| > 0 && order[0] !in order[1..]
    requires DeletesDone(w, m, [order[0]], snap) && DeletesDone(m, r, order[1..], snap)
    ensures DeletesDone(w, r, order, snap)
  {
  }

  /** The rest of a delete order is still to be deleted after its head. */
  lemma DeleteSetAfterStep(w: World, m: World, order: seq<string>, snap: map<string, Event>)
    requires |order| > 0 && order[0] !in order[1..]
    requires forall v | v in order :: v in DeleteSet(snap, w.events)
    requires DeletesDone(w, m, [order[0]], snap)
    ensures forall v | v in order[1..] :: v in DeleteSet(snap, m.events)
  {
    forall v | v in order[1..] ensures v in DeleteSet(snap, m.events) {
      assert v in order && v != order[0];
    }
  }

  // ---------------------------------------------------------------------
  // The three phases

  /** The loop over the create set. */
  function ApplyCreates(w: World, order: seq<string>, snap: map<string, Event>, o: Oracle): (r: Result<World, Google.Raised>)
    requires Distinct(order)
    requires forall v | v in order :: v in CreateSet(snap, w.events)
    ensures r.Failure? <==> !w.client.connected && |order| > 0
    ensures r.Success? ==> CreatesDone(w, r.value, order, snap)
    decreases |order|
  {
    if |order| == 0 then Success(w)
    else
      var u := order[0];
      assert u in order;
      assert u in CreateSet(snap, w.events);
      assert u in snap;
      var m :- CreateOne(w, u, snap[u], o);
      CreateOneDone(w, u, snap, o);
      DistinctTail(order);
      assert forall v | v in order[1..] :: v in CreateSet(snap, m.events) by {
        forall v | v in order[1..] ensures v in CreateSet(snap, m.events) {
          assert v in order && v != u;
        }
      }
      var r := ApplyCreates(m, order[1..], snap, o);
      if r.Success? then
        CreatesCompose(w, m, r.value, order, snap);
        r
      else r
  }

  /** The loop over the update set. */
  function ApplyUpdates(w: World, order: seq<string>, snap: map<string, Event>, o: Oracle): (r: Result<World, Google.Raised>)
    requires Distinct(order)
    requires forall v | v in order :: v in UpdateSet(snap, w.events)
    ensures r.Failure? <==> !w.client.connected && |order| > 0
    ensures r.Success? ==> UpdatesDone(w, r.value, order, snap)
    decreases |order|
  {
    if |order| == 0 then Success(w)
    else
      var u := order[0];
      assert u in order;
      assert u in UpdateSet(snap, w.events);
      assert u in snap && u in w.events;
      var m :- UpdateOne(w, u, snap[u], o);
      UpdateOneDone(w, u, snap, o);
      DistinctTail(order);
      assert forall v | v in order[1..] :: v in UpdateSet(snap, m.events) by {
        forall v | v in order[1..] ensures v in UpdateSet(snap, m.events) {
          assert v in order && v != u;
        }
      }
      var r := ApplyUpdates(m, order[1..], snap, o);
      if r.Success? then
        UpdatesCompose(w, m, r.value, order, snap);
        r
      else r
  }

  /** The loop over the delete set. */
  function ApplyDeletes(w: World, order: seq<string>, snap: map<string, Event>, o: Oracle): (r: Result<World, Google.Raised>)
    requires Distinct(order)
    requires forall v | v in order :: v in DeleteSet(snap, w.events)
    ensures r.Failure? <==> !w.client.connected && |order| > 0
    ensures r.Success? ==> DeletesDone(w, r.value, order, snap)
    decreases |order|
  {
    if |order| == 0 then Success(w)
    else
      var u := order[0];
      assert u in order;
      assert u in DeleteSet(snap, w.events);
      assert u in w.events;
      var m :- DeleteOne(w, u, o);
      DeleteOneDone(w, u, snap, o);
      DistinctTail(order);
      DeleteSetAfterStep(w, m, order, snap);
      var r := ApplyDeletes(m, order[1..], snap, o);
      if r.Success? then
        DeletesCompose(w, m, r.value, order, snap);
        r
      else r
  }

  // ---------------------------------------------------------------------
  // Which uids a phase wrote

  /** The create phase records exactly the uids whose insert returned a
      truthy id, each under that id; the calendar keeps every event it had. */
  lemma {:induction false} CreatesFollowOracle(w: World, order: seq<string>, snap: map<string, Event>, o: Oracle)
    requires Distinct(order)
    requires forall v | v in order :: v in CreateSet(snap, w.events)
    requires ApplyCreates(w, order, snap, o).Success?
    ensures var r := ApplyCreates(w, order, snap, o).value;
      && w.client.calendar.Keys <= r.client.calendar.Keys
      && forall u | u in order ::
           && (u in r.events <==> o.insert(u).Ok? && o.insert(u).value != "")
           && (u in r.events ==> r.events[u].googleId == o.insert(u).value)
    decreases |order|
  {
    if |order| > 0 {
      var u := order[0];
      assert u in order;
      var m := CreateOne(w, u, snap[u], o).value;
      CreateOneDone(w, u, snap, o);
      DistinctTail(order);
      forall v | v in order[1..] ensures v in CreateSet(snap, m.events) {
        assert v in order && v != u;
      }
      CreatesFollowOracle(m, order[1..], snap, o);
      var r := ApplyCreates(m, order[1..], snap, o).value;
      assert ApplyCreates(w, order, snap, o).value == r;
      forall v | v in order
        ensures && (v in r.events <==> o.insert(v).Ok? && o.insert(v).value != "")
                && (v in r.events ==> r.events[v].googleId == o.insert(v).value)
      {
        if v == u {
          assert u !in w.events;
        } else {
          assert v in order[1..];
        }
      }
    }
  }

  /** The update phase gives the snapshot's fingerprint to exactly the uids
      whose update met no fault and whose Google event exists; the
      calendar's ids stay the same. */
  lemma {:induction false} UpdatesFollowOracle(w: World, order: seq<string>, snap: map<string, Event>, o: Oracle)
    requires Distinct(order)
    requires forall v | v in order :: v in UpdateSet(snap, w.events)
    requires ApplyUpdates(w, order, snap, o).Success?
    ensures var r := ApplyUpdates(w, order, snap, o).value;
      && r.client.calendar.Keys == w.client.calendar.Keys
      && forall u | u in order ::
           (r.events[u].hash == snap[u].hash <==> o.updateFault(u).None? && w.events[u].googleId in w.client.calendar)
    decreases |order|
  {
    if |order| > 0 {
      var u := order[0];
      assert u in order;
      var m := UpdateOne(w, u, snap[u], o).value;
      UpdateOneDone(w, u, snap, o);
      DistinctTail(order);
      forall v | v in order[1..] ensures v in UpdateSet(snap, m.events) {
        assert v in order && v != u;
      }
      UpdatesFollowOracle(m, order[1..], snap, o);
      var r := ApplyUpdates(m, order[1..], snap, o).value;
      assert ApplyUpdates(w, order, snap, o).value == r;
      forall v | v in order
        ensures r.events[v].hash == snap[v].hash <==> o.updateFault(v).None? && w.events[v].googleId in w.client.calendar
      {
        if v == u {
          assert u !in order[1..];
          assert r.events[u] == m.events[u];
        } else {
          assert v in order[1..];
          assert m.events[v] == w.events[v];
        }
      }
    }
  }

  /** The delete phase keeps exactly the uids whose delete met a fault
      other than 404. */
  lemma {:induction false} DeletesFollowOracle(w: World, order: seq<string>, snap: map<string, Event>, o: Oracle)
    requires Distinct(order)
    requires forall v | v in order :: v in DeleteSet(snap, w.events)
    requires ApplyDeletes(w, order, snap, o).Success?
    ensures var r := ApplyDeletes(w, order, snap, o).value;
      forall u | u in order ::
        (u in r.events <==> o.deleteFault(u).Some? && o.deleteFault(u).value != Google.NotFound)
    decreases |order|
  {
    if |order| > 0 {
      var u := order[0];
      assert u in order;
      var m := DeleteOne(w, u, o).value;
      DeleteOneDone(w, u, snap, o);
      DistinctTail(order);
      DeleteSetAfterStep(w, m, order, snap);
      DeletesFollowOracle(m, order[1..], snap, o);
      var r := ApplyDeletes(m, order[1..], snap, o).value;
      assert ApplyDeletes(w, order, snap, o).value == r;
      forall v | v in order
        ensures v in r.events <==> o.deleteFault(v).Some? && o.deleteFault(v).value != Google.NotFound
      {
        if v == u {
          assert u !in order[1..];
        } else {
          assert v in order[1..];
        }
      }
    }
  }

  // ---------------------------------------------------------------------
  // A run

  /** The plan iterates exactly the create, update and delete sets. */
  predicate PlanFor(plan: Plan, snap: map<string, Event>, records: map<string, Record>) {
    && Enumerates(plan.create, CreateSet(snap, records))
    && Enumerates(plan.update, UpdateSet(snap, records))
    && Enumerates(plan.delete, DeleteSet(snap, records))
  }

  /** The number of writes a plan asks for. */
  function PlanSize(plan: Plan): nat {
    |plan.create| + |plan.update| + |plan.delete|
  }

  /** What the three phases achieve together, starting from `records`:
      every planned write counted once, and every successful write taking
      one uid off the work a following run would find. */
  ghost predicate PlanOutcome(records: map<string, Record>, w: World, plan: Plan, snap: map<string, Event>) {
    var c := w.counts;
    && c.created + c.updated + c.deleted + c.errors == PlanSize(plan)
    && CreateSet(snap, w.events) <= CreateSet(snap, records)
    && UpdateSet(snap, w.events) <= UpdateSet(snap, records)
    && DeleteSet(snap, w.events) <= DeleteSet(snap, records)
    && |CreateSet(snap, w.events)| + c.created == |plan.create|
    && |UpdateSet(snap, w.events)| + c.updated == |plan.update|
    && |DeleteSet(snap, w.events)| + c.deleted == |plan.delete|
  }

  /** The update set survives the create phase untouched. */
  lemma UpdateSetAfterCreates(snap: map<string, Event>, w0: World, w1: World, order: seq<string>)
    requires CreatesDone(w0, w1, order, snap)
    ensures UpdateSet(snap, w1.events) == UpdateSet(snap, w0.events)
  {
  }

  /** The delete set survives the create and update phases untouched. */
  lemma DeleteSetBeforeDeletes(snap: map<string, Event>, w0: World, w1: World, w2: World, plan: Plan)
    requires CreatesDone(w0, w1, plan.create, snap)
    requires UpdatesDone(w1, w2, plan.update, snap)
    ensures DeleteSet(snap, w2.events) == DeleteSet(snap, w0.events)
  {
  }

  /** The create set after the creates is the create set at the end. */
  lemma CreateSetAfterCreates(snap: map<string, Event>, w1: World, w2: World, w3: World, plan: Plan)
    requires UpdatesDone(w1, w2, plan.update, snap)
    requires DeletesDone(w2, w3, plan.delete, snap)
    requires forall v | v in plan.delete :: v in DeleteSet(snap, w2.events)
    ensures CreateSet(snap, w3.events) == CreateSet(snap, w1.events)
  {
  }

  /** The update set after the updates is the update set at the end. */
  lemma UpdateSetAfterUpdates(snap: map<string, Event>, w2: World, w3: World, plan: Plan)
    requires DeletesDone(w2, w3, plan.delete, snap)
    requires forall v | v in plan.delete :: v in DeleteSet(snap, w2.events)
    ensures UpdateSet(snap, w3.events) == UpdateSet(snap, w2.events)
  {
  }

  /** A phase never adds work of its own kind. */
  lemma PhasesShrinkSets(snap: map<string, Event>, w0: World, w1: World, w2: World, w3: World, plan: Plan)
    requires CreatesDone(w0, w1, plan.create, snap)
    requires UpdatesDone(w1, w2, plan.update, snap)
    requires DeletesDone(w2, w3, plan.delete, snap)
    requires forall v | v in plan.update :: v in UpdateSet(snap, w1.events)
    ensures CreateSet(snap, w1.events) <= CreateSet(snap, w0.events)
    ensures UpdateSet(snap, w2.events) <= UpdateSet(snap, w1.events)
    ensures DeleteSet(snap, w3.events) <= DeleteSet(snap, w2.events)
  {
  }

  /** The three phases together establish `PlanOutcome`. */
  lemma PhasesOutcome(records: map<string, Record>, snap: map<string, Event>,
                      w0: World, w1: World, w2: World, w3: World, plan: Plan)
    requires PlanFor(plan, snap, records)
    requires w0.events == records && w0.counts == Counters(0, 0, 0, 0)
    requires CreatesDone(w0, w1, plan.create, snap)
    requires UpdatesDone(w1, w2, plan.update, snap)
    requires DeletesDone(w2, w3, plan.delete, snap)
    requires forall v | v in plan.update :: v in UpdateSet(snap, w1.events)
    requires forall v | v in plan.delete :: v in DeleteSet(snap, w2.events)
    ensures PlanOutcome(records, w3, plan, snap)
  {
    EnumerationSize(plan.create, CreateSet(snap, records));
    EnumerationSize(plan.update, UpdateSet(snap, records));
    EnumerationSize(plan.delete, DeleteSet(snap, records));
    UpdateSetAfterCreates(snap, w0, w1, plan.create);
    DeleteSetBeforeDeletes(snap, w0, w1, w2, plan);
    CreateSetAfterCreates(snap, w1, w2, w3, plan);
    UpdateSetAfterUpdates(snap, w2, w3, plan);
    PhasesShrinkSets(snap, w0, w1, w2, w3, plan);
  }

  /** The apply phase of `sync`: the creates, then the updates, then the
      deletes, starting from the stored records and zero counters. */
  function ApplyPlan(records: map<string, Record>, client: Google.Client, plan: Plan,
                     snap: map<string, Event>, o: Oracle): (r: Result<World, Google.Raised>)
    requires PlanFor(plan, snap, records)
    ensures r.Failure? <==> !client.connected && PlanSize(plan) > 0
    ensures r.Success? ==> PlanOutcome(records, r.value, plan, snap)
  {
    var w0 := World(records, client, Counters(0, 0, 0, 0));
    var w1 :- ApplyCreates(w0, plan.create, snap, o);
    UpdateSetAfterCreates(snap, w0, w1, plan.create);
    var w2 :- ApplyUpdates(w1, plan.update, snap, o);
    DeleteSetBeforeDeletes(snap, w0, w1, w2, plan);
    var w3 :- ApplyDeletes(w2, plan.delete, snap, o);
    PhasesOutcome(records, snap, w0, w1, w2, w3, plan);
    Success(w3)
  }

  /** The worlds between the phases of a successful plan. */
  lemma ApplyPlanPhases(records: map<string, Record>, client: Google.Client, plan: Plan,
                        snap: map<string, Event>, o: Oracle)
    returns (w0: World, w1: World, w2: World, w3: World)
    requires PlanFor(plan, snap, records)
    requires ApplyPlan(records, client, plan, snap, o).Success?
    ensures w0 == World(records, client, Counters(0, 0, 0, 0))
    ensures ApplyCreates(w0, plan.create, snap, o) == Success(w1)
    ensures ApplyUpdates(w1, plan.update, snap, o) == Success(w2)
    ensures ApplyDeletes(w2, plan.delete, snap, o) == Success(w3)
    ensures ApplyPlan(records, client, plan, snap, o).value == w3
  {
    w0 := World(records, client, Counters(0, 0, 0, 0));
    w1 := ApplyCreates(w0, plan.create, snap, o).value;
    UpdateSetAfterCreates(snap, w0, w1, plan.create);
    w2 := ApplyUpdates(w1, plan.update, snap, o).value;
    DeleteSetBeforeDeletes(snap, w0, w1, w2, plan);
    w3 := ApplyDeletes(w2, plan.delete, snap, o).value;
  }

  /** A new uid stays to be created exactly when its insert gave no truthy id. */
  lemma PlanCreatesFollowOracle(records: map<string, Record>, client: Google.Client, plan: Plan,
                                snap: map<string, Event>, o: Oracle)
    requires PlanFor(plan, snap, records)
    requires ApplyPlan(records, client, plan, snap, o).Success?
    ensures var after := ApplyPlan(records, client, plan, snap, o).value.events;
      forall u | u in CreateSet(snap, records) ::
        (u in CreateSet(snap, after) <==> !(o.insert(u).Ok? && o.insert(u).value != ""))
  {
    var w0, w1, w2, w3 := ApplyPlanPhases(records, client, plan, snap, o);
    CreatesFollowOracle(w0, plan.create, snap, o);
    CreateSetAfterCreates(snap, w1, w2, w3, plan);
  }

  /** A changed uid stays to be updated when its update met a fault, and
      leaves when it met none and its Google event existed before the run. */
  lemma PlanUpdatesFollowOracle(records: map<string, Record>, client: Google.Client, plan: Plan,
                                snap: map<string, Event>, o: Oracle)
    requires PlanFor(plan, snap, records)
    requires ApplyPlan(records, client, plan, snap, o).Success?
    ensures var after := ApplyPlan(records, client, plan, snap, o).value.events;
      && (forall u | u in UpdateSet(snap, records) && o.updateFault(u).Some? :: u in UpdateSet(snap, after))
      && (forall u | u in UpdateSet(snap, records) && o.updateFault(u).None? && records[u].googleId in client.calendar ::
            u !in UpdateSet(snap, after))
  {
    var w0, w1, w2, w3 := ApplyPlanPhases(records, client, plan, snap, o);
    CreatesFollowOracle(w0, plan.create, snap, o);
    UpdateSetAfterCreates(snap, w0, w1, plan.create);
    UpdatesFollowOracle(w1, plan.update, snap, o);
    UpdateSetAfterUpdates(snap, w2, w3, plan);
  }

  /** A stale uid stays to be deleted exactly when its delete met a fault
      other than 404. */
  lemma PlanDeletesFollowOracle(records: map<string, Record>, client: Google.Client, plan: Plan,
                                snap: map<string, Event>, o: Oracle)
    requires PlanFor(plan, snap, records)
    requires ApplyPlan(records, client, plan, snap, o).Success?
    ensures var after := ApplyPlan(records, client, plan, snap, o).value.events;
      forall u | u in DeleteSet(snap, records) ::
        (u in DeleteSet(snap, after) <==> o.deleteFault(u).Some? && o.deleteFault(u).value != Google.NotFound)
  {
    var w0, w1, w2, w3 := ApplyPlanPhases(records, client, plan, snap, o);
    DeleteSetBeforeDeletes(snap, w0, w1, w2, plan);
    DeletesFollowOracle(w2, plan.delete, snap, o);
  }

  /** The counters of an applied plan add up to the sizes of the three
      sets, and no phase counts more successes than its set has uids. */
  lemma PlanAccounting(records: map<string, Record>, w: World, plan: Plan, snap: map<string, Event>)
    requires PlanFor(plan, snap, records)
    requires PlanOutcome(records, w, plan, snap)
    ensures var c := w.counts;
      && c.created + c.updated + c.deleted + c.errors
           == |CreateSet(snap, records)| + |UpdateSet(snap, records)| + |DeleteSet(snap, records)|
      && c.created <= |CreateSet(snap, records)|
      && c.updated <= |UpdateSet(snap, records)|
      && c.deleted <= |DeleteSet(snap, records)|
      && c.created + c.updated <= |snap|
  {
    EnumerationSize(plan.create, CreateSet(snap, records));
    EnumerationSize(plan.update, UpdateSet(snap, records));
    EnumerationSize(plan.delete, DeleteSet(snap, records));
    DiffPartition(snap, records);
  }

  /** `sync`: the run on the fetched list `raw` against the stored state,
      stamped `now`. It raises only when the client is not connected and
      there is something to write; otherwise every planned write is counted
      exactly once as done or as an error, and the last-run time is set
      whatever the errors. */
  function Sync(raw: seq<Event>, st: State, client: Google.Client, o: Oracle, plan: Plan, now: string)
    : (r: Result<Run, Google.Raised>)
    requires PlanFor(plan, Snapshot(raw), st.events)
    ensures r.Failure? <==> !client.connected && PlanSize(plan) > 0
    ensures r.Success? ==> r.value.state.lastSync == Some(now)
    ensures r.Success? ==>
      var s := r.value.stats;
      var snap := Snapshot(raw);
      && s.created + s.updated + s.deleted + s.errors
           == |CreateSet(snap, st.events)| + |UpdateSet(snap, st.events)| + |DeleteSet(snap, st.events)|
      && s.created <= |CreateSet(snap, st.events)|
      && s.updated <= |UpdateSet(snap, st.events)|
      && s.deleted <= |DeleteSet(snap, st.events)|
      && s.unchangedCount == |raw| - s.created - s.updated
      && s.unchangedCount >= 0
  {
    var snap := Snapshot(raw);
    var w :- ApplyPlan(st.events, client, plan, snap, o);
    PlanAccounting(st.events, w, plan, snap);
    var c := w.counts;
    Success(Run(Stats(c.created, c.updated, c.deleted, |raw| - c.created - c.updated, c.errors),
                State(w.events, Some(now)), w.client))
  }

  // ---------------------------------------------------------------------
  // Properties of a run

  /** After a run the next run's work is exactly what failed: each of the
      next create, update and delete sets lies inside this run's, and
      together they hold as many uids as this run counted errors. */
  lemma ResidualWorkIsErrors(raw: seq<Event>, st: State, client: Google.Client, o: Oracle, plan: Plan, now: string)
    requires PlanFor(plan, Snapshot(raw), st.events)
    requires Sync(raw, st, client, o, plan, now).Success?
    ensures var run := Sync(raw, st, client, o, plan, now).value;
      var snap := Snapshot(raw);
      var after := run.state.events;
      && CreateSet(snap, after) <= CreateSet(snap, st.events)
      && UpdateSet(snap, after) <= UpdateSet(snap, st.events)
      && DeleteSet(snap, after) <= DeleteSet(snap, st.events)
      && |CreateSet(snap, after)| + |UpdateSet(snap, after)| + |DeleteSet(snap, after)| == run.stats.errors
  {
  }

  /** A run without errors leaves the records mirroring the snapshot: the
      same uids, each with the snapshot event's fingerprint. */
  lemma Convergence(raw: seq<Event>, st: State, client: Google.Client, o: Oracle, plan: Plan, now: string)
    requires PlanFor(plan, Snapshot(raw), st.events)
    requires Sync(raw, st, client, o, plan, now).Success?
    requires Sync(raw, st, client, o, plan, now).value.stats.errors == 0
    ensures Converged(Sync(raw, st, client, o, plan, now).value.state.events, Snapshot(raw))
  {
    var after := Sync(raw, st, client, o, plan, now).value.state.events;
    ResidualWorkIsErrors(raw, st, client, o, plan, now);
    NothingToDoIffConverged(Snapshot(raw), after);
  }

  /** With nothing to do the apply phase is the identity and cannot raise. */
  lemma ApplyEmptyPlan(records: map<string, Record>, client: Google.Client, snap: map<string, Event>, o: Oracle)
    requires PlanFor(Plan([], [], []), snap, records)
    ensures ApplyPlan(records, client, Plan([], [], []), snap, o) == Success(World(records, client, Counters(0, 0, 0, 0)))
  {
  }

  /** When the records mirror the snapshot, every plan for them is empty. */
  lemma PlanEmptyWhenConverged(plan: Plan, snap: map<string, Event>, records: map<string, Record>)
    requires PlanFor(plan, snap, records)
    requires Converged(records, snap)
    ensures plan == Plan([], [], [])
  {
    NothingToDoIffConverged(snap, records);
    EnumerationSize(plan.create, {});
    EnumerationSize(plan.update, {});
    EnumerationSize(plan.delete, {});
  }

  /** On records that already mirror the snapshot a run plans nothing,
      writes nothing, cannot raise, and only stamps the time. */
  lemma QuietWhenConverged(raw: seq<Event>, st: State, client: Google.Client, o: Oracle, plan: Plan, now: string)
    requires PlanFor(plan, Snapshot(raw), st.events)
    requires Converged(st.events, Snapshot(raw))
    ensures plan == Plan([], [], [])
    ensures Sync(raw, st, client, o, plan, now)
         == Success(Run(Stats(0, 0, 0, |raw|, 0), State(st.events, Some(now)), client))
  {
    PlanEmptyWhenConverged(plan, Snapshot(raw), st.events);
    ApplyEmptyPlan(st.events, client, Snapshot(raw), o);
  }

  /** Idempotence: after a run without errors, a second run on the same
      list creates, updates and deletes nothing and keeps the records. */
  lemma SecondRunIsQuiet(raw: seq<Event>, st: State, client: Google.Client, o: Oracle, plan: Plan, now: string,
                         client2: Google.Client, o2: Oracle, plan2: Plan, now2: string)
    requires PlanFor(plan, Snapshot(raw), st.events)
    requires Sync(raw, st, client, o, plan, now).Success?
    requires Sync(raw, st, client, o, plan, now).value.stats.errors == 0
    requires PlanFor(plan2, Snapshot(raw), Sync(raw, st, client, o, plan, now).value.state.events)
    ensures var first := Sync(raw, st, client, o, plan, now).value;
      var second := Sync(raw, first.state, client2, o2, plan2, now2);
      && second.Success?
      && second.value.stats.created == 0 && second.value.stats.updated == 0 && second.value.stats.deleted == 0
      && second.value.state.events == first.state.events
  {
    var first := Sync(raw, st, client, o, plan, now).value;
    Convergence(raw, st, client, o, plan, now);
    QuietWhenConverged(raw, first.state, client2, o2, plan2, now2);
  }

  /** With no repeated uids in the list and no errors, the reported
      `unchanged` is the number of snapshot events that needed no write. */
  lemma UnchangedWithoutErrors(raw: seq<Event>, st: State, client: Google.Client, o: Oracle, plan: Plan, now: string)
    requires PlanFor(plan, Snapshot(raw), st.events)
    requires DistinctUids(raw)
    requires Sync(raw, st, client, o, plan, now).Success?
    requires Sync(raw, st, client, o, plan, now).value.stats.errors == 0
    ensures Sync(raw, st, client, o, plan, now).value.stats.unchangedCount == UnchangedCount(Snapshot(raw), st.events)
  {
    var snap := Snapshot(raw);
    var w := ApplyPlan(st.events, client, plan, snap, o).value;
    EnumerationSize(plan.create, CreateSet(snap, st.events));
    EnumerationSize(plan.update, UpdateSet(snap, st.events));
    SnapshotSize(raw);
  }

  /** How far `unchanged` as reported, the list length less the successful
      creates and updates, is from the number of snapshot events that
      needed no write. */
  lemma ReportedUnchanged(raw: seq<Event>, records: map<string, Record>, created: nat, updated: nat, reported: int)
    requires created <= |CreateSet(Snapshot(raw), records)| && updated <= |UpdateSet(Snapshot(raw), records)|
    requires reported == |raw| - created - updated
    ensures var snap := Snapshot(raw);
      var intended := UnchangedCount(snap, records);
      && reported == intended + (|raw| - |snap|)
           + (|CreateSet(snap, records)| - created) + (|UpdateSet(snap, records)| - updated)
      && ((reported == intended)
           <==> (DistinctUids(raw) && created == |CreateSet(snap, records)| && updated == |UpdateSet(snap, records)|))
  {
    SnapshotSize(raw);
  }

  /** The reported `unchanged` counts a refused insert as unchanged: one new
      event whose insert the service refuses gives `unchanged` 1, although
      no event of the snapshot was left as it was. */
  lemma UnchangedCountsFailedWrites()
    ensures var e := Event("a", "s", "", "", "2024-01-01T09:00:00", "2024-01-01T10:00:00", false, "c", None, "h");
      var o := Oracle(_ => Google.HttpError(500), _ => None, _ => None);
      var st := State(map[], None);
      var plan := Plan(["a"], [], []);
      && PlanFor(plan, Snapshot([e]), st.events)
      && var run := Sync([e], st, Google.Client(true, map[]), o, plan, "t");
      && run.Success?
      && run.value.stats.unchangedCount == 1
      && UnchangedCount(Snapshot([e]), st.events) == 0
  {
    var e := Event("a", "s", "", "", "2024-01-01T09:00:00", "2024-01-01T10:00:00", false, "c", None, "h");
    var o := Oracle(_ => Google.HttpError(500), _ => None, _ => None);
    var client := Google.Client(true, map[]);
    var snap := Snapshot([e]);
    assert snap == map["a" := e];
    var w0 := World(map[], client, Counters(0, 0, 0, 0));
    var w1 := World(map[], client, Counters(0, 0, 0, 1));
    assert CreateOne(w0, "a", e, o) == Success(w1);
    assert ApplyCreates(w1, [], snap, o) == Success(w1);
    assert ApplyCreates(w0, ["a"], snap, o) == Success(w1);
    assert ApplyUpdates(w1, [], snap, o) == Success(w1);
    assert ApplyDeletes(w1, [], snap, o) == Success(w1);
    assert UnchangedSet(snap, map[]) == {};
  }

  /** A uid listed twice makes the reported `unchanged` too large on every
      run, whatever the state and whatever the service answers. */
  lemma UnchangedCountsRepeatedUids(st: State, client: Google.Client, o: Oracle, plan: Plan, now: string)
    ensures var e := Event("a", "s", "", "", "2024-01-01T09:00:00", "2024-01-01T10:00:00", false, "c", None, "h");
      PlanFor(plan, Snapshot([e, e]), st.events) && Sync([e, e], st, client, o, plan, now).Success? ==>
        Sync([e, e], st, client, o, plan, now).value.stats.unchangedCount > UnchangedCount(Snapshot([e, e]), st.events)
  {
  }

  /** A run on an empty list without errors deletes every mirrored event
      and forgets every record. */
  lemma EmptyListDeletesEverything(st: State, client: Google.Client, o: Oracle, plan: Plan, now: string)
    requires PlanFor(plan, Snapshot([]), st.events)
    requires Sync([], st, client, o, plan, now).Success?
    requires Sync([], st, client, o, plan, now).value.stats.errors == 0
    ensures var run := Sync([], st, client, o, plan, now).value;
      && plan.create == [] && plan.update == []
      && run.stats.deleted == |st.events|
      && run.state.events == map[]
  {
    assert Snapshot([]) == map[];
    EnumerationSize(plan.create, {});
    EnumerationSize(plan.update, {});
    assert DeleteSet(Snapshot([]), st.events) == st.events.Keys;
    Convergence([], st, client, o, plan, now);
  }

  /** Fetch failures are not told apart from emptied calendars: when every
      calendar fails to load, the list is empty, so a run without errors
      deletes every mirrored event and forgets every record. */
  lemma OutageDeletesEverything(cals: seq<CalendarFetch>, md5: string -> string, st: State,
                                client: Google.Client, o: Oracle, plan: Plan, now: string)
    requires forall i | 0 <= i < |cals| :: cals[i].FetchFailed?
    requires PlanFor(plan, Snapshot(GetEvents(cals, md5)), st.events)
    requires Sync(GetEvents(cals, md5), st, client, o, plan, now).Success?
    requires Sync(GetEvents(cals, md5), st, client, o, plan, now).value.stats.errors == 0
    ensures var run := Sync(GetEvents(cals, md5), st, client, o, plan, now).value;
      && plan.create == [] && plan.update == []
      && run.stats.deleted == |st.events|
      && run.state.events == map[]
  {
    AllFetchesFailed(cals, md5);
    EmptyListDeletesEverything(st, client, o, plan, now);
  }
}

=== FILE: google.dfy ===
/** The Google Calendar side of the sync (google_calendar.py): the mapping
    of a normalised record onto a Google event, and the three write
    operations the engine drives, over a calendar held as a map from event
    id to event.

    The HTTP service is reduced to its effect on that map: an update or a
    delete of an id the calendar does not hold answers 404, and every call
    may in addition be refused with an HTTP status chosen by the caller of
    the model (`fault`), which stands for quota errors, outages and the
    like. The id of an inserted event is likewise chosen by the caller. */
module Google {
  import opened Wrappers
  import ICloud

  /** The `start` / `end` object of a Google event. */
  datatype EventTime = AllDay(date: string) | Timed(dateTime: string, timeZone: string)

  /** The `extendedProperties.private` object the sync attaches to each event. */
  datatype PrivateProperties = PrivateProperties(icloudUid: string, icloudHash: string, sourceCalendar: string)

  datatype GoogleEvent = GoogleEvent(
    summary: string,
    description: string,
    location: string,
    properties: PrivateProperties,
    start: EventTime,
    end: EventTime)

  /** The event dictionary the converter receives; `None` marks a key the
      dictionary lacks. The keys read with `[...]` are always present. */
  datatype EventData = EventData(
    uid: string,
    summary: string,
    description: Option<string>,
    location: Option<string>,
    start: string,
    end: string,
    isAllDay: Option<bool>,
    calendarName: Option<string>,
    hash: Option<string>)

  /** The zone every timed event is tagged with. */
  const TimeZone: string := "Asia/Shanghai"

  /** Length of an ISO 8601 calendar date, `YYYY-MM-DD`. */
  const DateWidth: nat := 10

  const NotFound: int := 404

  /** Python's `s[:n]`. */
  function Prefix(s: string, n: nat): (p: string)
    ensures p <= s
    ensures |p| == if |s| < n then |s| else n
  {
    if |s| <= n then s else s[..n]
  }

  /** The dictionary the engine passes for a record: every key present. */
  function FromEvent(e: ICloud.Event): EventData {
    EventData(e.uid, e.summary, Some(e.description), Some(e.location), e.start, e.end,
              Some(e.isAllDay), Some(e.calendarName), Some(e.hash))
  }

  /** The Google event for a dictionary: the same texts, all-day events as
      10-character dates, timed events as date-times in the fixed zone,
      and uid, hash and calendar as private metadata. */
  function Convert(d: EventData): (g: GoogleEvent)
    ensures g.summary == d.summary
    ensures g.description == d.description.GetOr("") && g.location == d.location.GetOr("")
    ensures g.properties.icloudUid == d.uid
    ensures g.properties.icloudHash == d.hash.GetOr("")
    ensures g.properties.sourceCalendar == d.calendarName.GetOr("")
    ensures g.start.AllDay? <==> d.isAllDay == Some(true)
    ensures g.end.AllDay? <==> d.isAllDay == Some(true)
    ensures g.start.AllDay? ==> g.start.date == Prefix(d.start, DateWidth)
    ensures g.end.AllDay? ==> g.end.date == Prefix(d.end, DateWidth)
    ensures g.start.Timed? ==> g.start == Timed(d.start, TimeZone)
    ensures g.end.Timed? ==> g.end == Timed(d.end, TimeZone)
  {
    var properties := PrivateProperties(d.uid, d.hash.GetOr(""), d.calendarName.GetOr(""));
    var allDay := d.isAllDay == Some(true);
    var start := if allDay then AllDay(Prefix(d.start, DateWidth)) else Timed(d.start, TimeZone);
    var end := if allDay then AllDay(Prefix(d.end, DateWidth)) else Timed(d.end, TimeZone);
    GoogleEvent(d.summary, d.description.GetOr(""), d.location.GetOr(""), properties, start, end)
  }

  /** The instant text of an event time. */
  function TimeText(t: EventTime): string {
    match t
    case AllDay(date) => date
    case Timed(dateTime, _) => dateTime
  }

  /** The dictionary a Google event was made from, read back from its
      fields and private metadata. */
  function ReadBack(g: GoogleEvent): EventData {
    EventData(g.properties.icloudUid, g.summary, Some(g.description), Some(g.location),
              TimeText(g.start), TimeText(g.end), Some(g.start.AllDay?),
              Some(g.properties.sourceCalendar), Some(g.properties.icloudHash))
  }

  /** A record survives the trip to Google and back exactly when it is not
      an all-day event whose start or end is longer than a date. */
  lemma ConvertRoundTrip(e: ICloud.Event)
    ensures ReadBack(Convert(FromEvent(e))) == FromEvent(e)
        <==> (e.isAllDay ==> |e.start| <= DateWidth && |e.end| <= DateWidth)
  {
  }

  // ---------------------------------------------------------------------
  // Write operations

  /** A client holds a service only after a successful `connect`. */
  datatype Client = Client(connected: bool, calendar: map<string, GoogleEvent>)

  /** The exception a write operation raises on a client without a service. */
  datatype Raised = NotConnected

  /** What the HTTP service answers. */
  datatype Reply<T> = Ok(value: T) | HttpError(status: int)

  /** The outcome of `create_event`: the client afterwards and the returned id. */
  datatype Inserted = Inserted(client: Client, id: Option<string>)

  /** The outcome of `update_event` and `delete_event`: the client afterwards
      and the returned flag. */
  datatype Written = Written(client: Client, ok: bool)

  /** The service's update: 404 for an id the calendar does not hold. */
  function ServiceUpdate(calendar: map<string, GoogleEvent>, id: string, g: GoogleEvent, fault: Option<int>)
    : Reply<map<string, GoogleEvent>>
  {
    if fault.Some? then HttpError(fault.value)
    else if id !in calendar then HttpError(NotFound)
    else Ok(calendar[id := g])
  }

  /** The service's delete: 404 for an id the calendar does not hold. */
  function ServiceDelete(calendar: map<string, GoogleEvent>, id: string, fault: Option<int>)
    : Reply<map<string, GoogleEvent>>
  {
    if fault.Some? then HttpError(fault.value)
    else if id !in calendar then HttpError(NotFound)
    else Ok(calendar - {id})
  }

  /** `create_event`: on a refused insert the id is `None` and nothing
      changes; otherwise the converted event is stored under the id the
      service assigned. */
  function CreateEvent(c: Client, d: EventData, reply: Reply<string>): (r: Result<Inserted, Raised>)
    ensures r.Failure? <==> !c.connected
    ensures r.Success? ==> r.value.client.connected
    ensures r.Success? ==> (r.value.id.Some? <==> reply.Ok?)
    ensures r.Success? && reply.Ok? ==> r.value.id == Some(reply.value)
    ensures r.Success? && r.value.id.None? ==> r.value.client == c
    ensures r.Success? && r.value.id.Some? ==>
      var cal := r.value.client.calendar;
      && cal.Keys == c.calendar.Keys + {r.value.id.value}
      && cal[r.value.id.value] == Convert(d)
      && forall k | k in c.calendar && k != r.value.id.value :: cal[k] == c.calendar[k]
  {
    if !c.connected then Failure(NotConnected)
    else
      match reply
      case HttpError(_) => Success(Inserted(c, None))
      case Ok(id) => Success(Inserted(c.(calendar := c.calendar[id := Convert(d)]), Some(id)))
  }

  /** `update_event`: succeeds exactly when the service accepts, which it
      does for an id the calendar holds and no fault; only that event
      changes. */
  function UpdateEvent(c: Client, id: string, d: EventData, fault: Option<int>): (r: Result<Written, Raised>)
    ensures r.Failure? <==> !c.connected
    ensures r.Success? ==> r.value.client.connected
    ensures r.Success? ==> (r.value.ok <==> fault.None? && id in c.calendar)
    ensures r.Success? && !r.value.ok ==> r.value.client == c
    ensures r.Success? && r.value.ok ==>
      var cal := r.value.client.calendar;
      && cal.Keys == c.calendar.Keys
      && cal[id] == Convert(d)
      && forall k | k in c.calendar && k != id :: cal[k] == c.calendar[k]
  {
    if !c.connected then Failure(NotConnected)
    else
      match ServiceUpdate(c.calendar, id, Convert(d), fault)
      case HttpError(_) => Success(Written(c, false))
      case Ok(calendar) => Success(Written(c.(calendar := calendar), true))
  }

  /** `delete_event`: a 404 counts as success, so the result is a failure
      only for a fault other than 404; the event is gone afterwards unless
      a fault was injected. */
  function DeleteEvent(c: Client, id: string, fault: Option<int>): (r: Result<Written, Raised>)
    ensures r.Failure? <==> !c.connected
    ensures r.Success? ==> r.value.client.connected
    ensures r.Success? ==> (r.value.ok <==> fault.None? || fault.value == NotFound)
    ensures r.Success? && fault.Some? ==> r.value.client == c
    ensures r.Success? && fault.None? ==>
      var cal := r.value.client.calendar;
      && cal.Keys == c.calendar.Keys - {id}
      && forall k | k in cal :: cal[k] == c.calendar[k]
  {
    if !c.connected then Failure(NotConnected)
    else
      match ServiceDelete(c.calendar, id, fault)
      case HttpError(status) => Success(Written(c, status == NotFound))
      case Ok(calendar) => Success(Written(c.(calendar := calendar), true))
  }

  /** Deleting an id the calendar no longer holds is a success that changes
      nothing; in particular a second delete of the same id is not an error. */
  lemma DeleteTwice(c: Client, id: string)
    requires c.connected
    ensures var first := DeleteEvent(c, id, None).value;
            var second := DeleteEvent(first.client, id, None).value;
            first.ok && second.ok && second.client == first.client && id !in second.client.calendar
  {
  }
}

=== FILE: icloud.dfy ===
/** The iCloud side of the sync (icloud_calendar.py): turning the CalDAV
    resources of every calendar into normalised event records, and the
    content fingerprint the engine uses as its only change signal.

    The CalDAV connection, the date search and the iCalendar parser are
    outside the model: their results arrive as `CalendarFetch` values.
    MD5 is a parameter `md5` of the functions that need it, so every
    statement here holds for any digest function. */
module ICloud {
  import opened Wrappers

  /** A DTSTART or DTEND value: a DATE (all-day) or a DATE-TIME, carried as
      the ISO 8601 text the reader renders for it. The zone handling is
      outside the model: in a timed event a floating DATE-TIME is rendered
      with the local zone attached, while the DTEND of an all-day event is
      rendered as it stands. */
  datatype Moment = Date(iso: string) | DateTime(iso: string)

  /** The properties of one iCalendar component that the reader looks at;
      `None` where the component does not carry the property. */
  datatype Component = Component(
    name: string,
    uid: Option<string>,
    summary: Option<string>,
    description: Option<string>,
    location: Option<string>,
    dtstart: Option<Moment>,
    dtend: Option<Moment>,
    lastModified: Option<string>)

  /** One CalDAV resource: its components in walk order, or data the
      iCalendar parser rejects. */
  datatype Resource = Unparseable | Components(components: seq<Component>)

  /** One calendar of the account: the resources its date search returned,
      or a search that raised. */
  datatype CalendarFetch = Fetched(name: string, resources: seq<Resource>) | FetchFailed(name: string)

  /** The normalised event record handed to the sync engine. */
  datatype Event = Event(
    uid: string,
    summary: string,
    description: string,
    location: string,
    start: string,
    end: string,
    isAllDay: bool,
    calendarName: string,
    lastModified: Option<string>,
    hash: string)

  const EventComponent: string := "VEVENT"

  /** The summary given to an event without one (Chinese for "untitled"). */
  const Untitled: string := "\U{65E0}\U{6807}\U{9898}"

  const Separator: char := '|'

  const SecondsPerDay: int := 86400

  /** Length of the search window when the caller gives no end date. */
  const DefaultRangeDays: int := 365

  // ---------------------------------------------------------------------
  // Fingerprint

  /** Python's `str` of a bool. */
  function BoolText(b: bool): string {
    if b then "True" else "False"
  }

  /** The fields joined by the separator, as an f-string with `|` between
      the placeholders renders them. */
  function Join(fields: seq<string>): string
    requires |fields| > 0
  {
    if |fields| == 1 then fields[0] else fields[0] + [Separator] + Join(fields[1..])
  }

  /** The text that is digested: uid, summary, description, location,
      start, end and the all-day flag, in that order. */
  function HashContent(uid: string, summary: string, description: string, location: string,
                       start: string, end: string, isAllDay: bool): string
  {
    Join([uid, summary, description, location, start, end, BoolText(isAllDay)])
  }

  /** The digested text is the seven fields written one after another with
      a `|` between neighbours, as the f-string builds it. */
  lemma HashContentLayout(uid: string, summary: string, description: string, location: string,
                          start: string, end: string, isAllDay: bool)
    ensures HashContent(uid, summary, description, location, start, end, isAllDay)
         == uid + [Separator] + summary + [Separator] + description + [Separator] + location
            + [Separator] + start + [Separator] + end + [Separator] + BoolText(isAllDay)
  {
    var t := BoolText(isAllDay);
    var s := [Separator];
    assert Join([end, t]) == end + s + t by {
      assert [end, t][1..] == [t];
    }
    assert Join([start, end, t]) == start + s + (end + s + t) by {
      assert [start, end, t][1..] == [end, t];
    }
    assert Join([location, start, end, t]) == location + s + (start + s + (end + s + t)) by {
      assert [location, start, end, t][1..] == [start, end, t];
    }
    assert Join([description, location, start, end, t])
        == description + s + (location + s + (start + s + (end + s + t))) by {
      assert [description, location, start, end, t][1..] == [location, start, end, t];
    }
    assert Join([summary, description, location, start, end, t])
        == summary + s + (description + s + (location + s + (start + s + (end + s + t)))) by {
      assert [summary, description, location, start, end, t][1..] == [description, location, start, end, t];
    }
    assert [uid, summary, description, location, start, end, t][1..] == [summary, description, location, start, end, t];
  }

  function Fingerprint(md5: string -> string, uid: string, summary: string, description: string,
                       location: string, start: string, end: string, isAllDay: bool): string
  {
    md5(HashContent(uid, summary, description, location, start, end, isAllDay))
  }

  /** The record's hash is the digest of its own content fields; the
      calendar name and the last-modified stamp play no part. */
  predicate WellHashed(md5: string -> string, e: Event) {
    e.hash == Fingerprint(md5, e.uid, e.summary, e.description, e.location, e.start, e.end, e.isAllDay)
  }

  /** The six free-text fields of a record are free of the separator. */
  predicate SeparatorFree(e: Event) {
    && Separator !in e.uid && Separator !in e.summary && Separator !in e.description
    && Separator !in e.location && Separator !in e.start && Separator !in e.end
  }

  /** Cutting at the first separator recovers both halves. */
  lemma SplitAtSeparator(a: string, b: string, c: string, d: string)
    requires Separator !in a && Separator !in c
    requires a + [Separator] + b == c + [Separator] + d
    ensures a == c && b == d
  {
    var x := a + [Separator] + b;
    assert x[|a|] == Separator;
    assert x[|c|] == Separator;
    assert |a| == |c|;
    assert a == x[..|a|] && c == x[..|c|];
    assert b == x[|a| + 1..] && d == x[|c| + 1..];
  }

  /** Joining separator-free fields loses nothing. */
  lemma {:induction false} JoinInjective(xs: seq<string>, ys: seq<string>)
    requires |xs| == |ys| > 0
    requires forall i | 0 <= i < |xs| :: Separator !in xs[i]
    requires forall i | 0 <= i < |ys| :: Separator !in ys[i]
    requires Join(xs) == Join(ys)
    ensures xs == ys
  {
    if |xs| > 1 {
      SplitAtSeparator(xs[0], Join(xs[1..]), ys[0], Join(ys[1..]));
      JoinInjective(xs[1..], ys[1..]);
      assert xs == [xs[0]] + xs[1..];
      assert ys == [ys[0]] + ys[1..];
    }
  }

  /** For separator-free fields the digested text determines the seven
      fingerprint fields, and so two records get the same text exactly when
      those fields agree. */
  lemma HashContentInjective(e1: Event, e2: Event)
    requires SeparatorFree(e1) && SeparatorFree(e2)
    ensures HashContent(e1.uid, e1.summary, e1.description, e1.location, e1.start, e1.end, e1.isAllDay)
         == HashContent(e2.uid, e2.summary, e2.description, e2.location, e2.start, e2.end, e2.isAllDay)
        <==> SameContent(e1, e2)
  {
    var xs := [e1.uid, e1.summary, e1.description, e1.location, e1.start, e1.end, BoolText(e1.isAllDay)];
    var ys := [e2.uid, e2.summary, e2.description, e2.location, e2.start, e2.end, BoolText(e2.isAllDay)];
    if Join(xs) == Join(ys) {
      JoinInjective(xs, ys);
      assert xs[6] == ys[6];
    }
  }

  /** The seven fingerprint fields agree. */
  predicate SameContent(e1: Event, e2: Event) {
    && e1.uid == e2.uid && e1.summary == e2.summary && e1.description == e2.description
    && e1.location == e2.location && e1.start == e2.start && e1.end == e2.end
    && e1.isAllDay == e2.isAllDay
  }

  /** With a collision-free digest, two well-hashed, separator-free records
      have equal fingerprints exactly when their seven content fields agree:
      a change to any of them is detected, a change elsewhere is not. */
  lemma FingerprintDetectsChange(md5: string -> string, e1: Event, e2: Event)
    requires forall s, t :: md5(s) == md5(t) ==> s == t
    requires WellHashed(md5, e1) && WellHashed(md5, e2)
    requires SeparatorFree(e1) && SeparatorFree(e2)
    ensures e1.hash == e2.hash <==> SameContent(e1, e2)
  {
    HashContentInjective(e1, e2);
  }

  /** The separator is not escaped: a `|` inside a field can move a field
      boundary without changing the digested text. */
  lemma SeparatorInFieldCollides()
    ensures HashContent("a|b", "c", "", "", "s", "e", false) == HashContent("a", "b|c", "", "", "s", "e", false)
  {
  }

  // ---------------------------------------------------------------------
  // Normalisation

  /** A DATE-TIME start with a DATE end. The reader asks the end for its
      time zone, which a date does not have; the exception this raises is
      caught, and the event is dropped. */
  predicate MixedTimes(c: Component) {
    c.dtstart.Some? && c.dtstart.value.DateTime? && c.dtend.Some? && c.dtend.value.Date?
  }

  /** The record the reader builds from one VEVENT, or `None` when the
      component has no start or has a timed start with a date end. */
  function Normalise(c: Component, calendarName: string, md5: string -> string): (r: Option<Event>)
    ensures r.None? <==> c.dtstart.None? || MixedTimes(c)
    ensures r.Some? ==> WellHashed(md5, r.value) && r.value.calendarName == calendarName
    ensures r.Some? ==> (r.value.isAllDay <==> c.dtstart.value.Date?)
    ensures r.Some? ==> r.value.start == c.dtstart.value.iso
    ensures r.Some? && c.dtend.None? ==> r.value.end == r.value.start
    ensures r.Some? && c.dtend.Some? ==> r.value.end == c.dtend.value.iso
    ensures r.Some? ==> r.value.summary == (if c.summary.Some? then c.summary.value else Untitled)
    ensures r.Some? ==> r.value.uid == (if c.uid.Some? then c.uid.value else "")
    ensures r.Some? ==> r.value.description == c.description.GetOr("")
    ensures r.Some? ==> r.value.location == c.location.GetOr("")
    ensures r.Some? ==> r.value.lastModified == c.lastModified
  {
    if c.dtstart.None? || MixedTimes(c) then None
    else
      var start := c.dtstart.value.iso;
      var end := if c.dtend.Some? then c.dtend.value.iso else start;
      var isAllDay := c.dtstart.value.Date?;
      var uid := c.uid.GetOr("");
      var summary := c.summary.GetOr(Untitled);
      var description := c.description.GetOr("");
      var location := c.location.GetOr("");
      Some(Event(uid, summary, description, location, start, end, isAllDay, calendarName, c.lastModified,
                 Fingerprint(md5, uid, summary, description, location, start, end, isAllDay)))
  }

  /** A component carrying every field of `e`: the reverse direction of
      `Normalise`. */
  function ToComponent(e: Event): Component {
    var moment := (s: string) => if e.isAllDay then Date(s) else DateTime(s);
    Component(EventComponent, Some(e.uid), Some(e.summary), Some(e.description), Some(e.location),
              Some(moment(e.start)), Some(moment(e.end)), e.lastModified)
  }

  /** Rendering a record as a component and normalising it again gives the
      record back exactly when its hash is the fingerprint of its fields. */
  lemma NormaliseRoundTrip(e: Event, md5: string -> string)
    ensures Normalise(ToComponent(e), e.calendarName, md5) == Some(e) <==> WellHashed(md5, e)
  {
  }

  /** Normalisation is idempotent: a normalised record survives another pass. */
  lemma NormaliseIdempotent(c: Component, name: string, md5: string -> string)
    requires Normalise(c, name, md5).Some?
    ensures Normalise(ToComponent(Normalise(c, name, md5).value), name, md5) == Normalise(c, name, md5)
  {
  }

  /** Components that differ only in their last-modified stamp, read from
      calendars of different names, get the same fingerprint. */
  lemma FingerprintIgnoresMetadata(c1: Component, c2: Component, name1: string, name2: string, md5: string -> string)
    requires c1.(lastModified := None) == c2.(lastModified := None)
    ensures Normalise(c1, name1, md5).Some? == Normalise(c2, name2, md5).Some?
    ensures Normalise(c1, name1, md5).Some? ==> Normalise(c1, name1, md5).value.hash == Normalise(c2, name2, md5).value.hash
  {
  }

  // ---------------------------------------------------------------------
  // Reading resources and calendars

  /** The first VEVENT of a component list in walk order. */
  function FirstEvent(cs: seq<Component>): (r: Option<Component>)
    ensures r.None? <==> forall i | 0 <= i < |cs| :: cs[i].name != EventComponent
    ensures r.Some? ==> exists k | 0 <= k < |cs| :: cs[k] == r.value && IsFirstEvent(cs, k)
  {
    if |cs| == 0 then None
    else if cs[0].name == EventComponent then Some(cs[0])
    else
      var r := FirstEvent(cs[1..]);
      assert r.Some? ==> exists k | 0 <= k < |cs| :: cs[k] == r.value && IsFirstEvent(cs, k) by {
        if r.Some? {
          var k :| 0 <= k < |cs[1..]| && cs[1..][k] == r.value && IsFirstEvent(cs[1..], k);
          assert cs[k + 1] == r.value && IsFirstEvent(cs, k + 1);
        }
      }
      r
  }

  /** Position `k` holds a VEVENT and no earlier position does. */
  predicate IsFirstEvent(cs: seq<Component>, k: int)
    requires 0 <= k < |cs|
  {
    cs[k].name == EventComponent && forall i | 0 <= i < k :: cs[i].name != EventComponent
  }

  /** The record for one resource: its first VEVENT normalised, or `None`
      when the data does not parse, holds no VEVENT, or that VEVENT yields
      no record; later VEVENTs are never looked at. */
  function ParseResource(res: Resource, calendarName: string, md5: string -> string): (r: Option<Event>)
    ensures r.Some? ==> res.Components? && WellHashed(md5, r.value) && r.value.calendarName == calendarName
    ensures r.Some? <==> res.Components? && FirstEvent(res.components).Some?
                         && FirstEvent(res.components).value.dtstart.Some?
                         && !MixedTimes(FirstEvent(res.components).value)
    ensures r.Some? ==> r == Normalise(FirstEvent(res.components).value, calendarName, md5)
  {
    match res
    case Unparseable => None
    case Components(cs) =>
      match FirstEvent(cs)
      case None => None
      case Some(c) => Normalise(c, calendarName, md5)
  }

  /** The records of one calendar's resources, in order, dropping those
      that yield none. */
  function ParseAll(rs: seq<Resource>, calendarName: string, md5: string -> string): (r: seq<Event>)
    ensures |r| <= |rs|
    ensures forall e | e in r :: WellHashed(md5, e) && e.calendarName == calendarName
  {
    if |rs| == 0 then []
    else
      var rest := ParseAll(rs[1..], calendarName, md5);
      match ParseResource(rs[0], calendarName, md5)
      case None => rest
      case Some(e) => [e] + rest
  }

  /** Every record of a calendar comes from one of its resources, and every
      resource that yields a record contributes it. */
  lemma {:induction false} ParseAllMembers(rs: seq<Resource>, calendarName: string, md5: string -> string)
    ensures forall e | e in ParseAll(rs, calendarName, md5) ::
              exists j | 0 <= j < |rs| :: ParseResource(rs[j], calendarName, md5) == Some(e)
    ensures forall j | 0 <= j < |rs| && ParseResource(rs[j], calendarName, md5).Some? ::
              ParseResource(rs[j], calendarName, md5).value in ParseAll(rs, calendarName, md5)
  {
    if |rs| > 0 {
      var rest := ParseAll(rs[1..], calendarName, md5);
      ParseAllMembers(rs[1..], calendarName, md5);
      forall e | e in rest
        ensures exists j | 0 <= j < |rs| :: ParseResource(rs[j], calendarName, md5) == Some(e)
      {
        var j :| 0 <= j < |rs[1..]| && ParseResource(rs[1..][j], calendarName, md5) == Some(e);
        assert rs[j + 1] == rs[1..][j];
      }
      forall j | 1 <= j < |rs| && ParseResource(rs[j], calendarName, md5).Some?
        ensures ParseResource(rs[j], calendarName, md5).value in rest
      {
        assert rs[1..][j - 1] == rs[j];
      }
    }
  }

  /** The records contributed by one calendar; a calendar whose search
      raised contributes none. */
  function FromCalendar(cal: CalendarFetch, md5: string -> string): seq<Event> {
    match cal
    case FetchFailed(_) => []
    case Fetched(name, rs) => ParseAll(rs, name, md5)
  }

  /** The snapshot list of `get_events`: every calendar's records in
      calendar order. */
  function GetEvents(cals: seq<CalendarFetch>, md5: string -> string): (r: seq<Event>)
    ensures forall e | e in r :: WellHashed(md5, e)
    ensures forall e | e in r :: exists i | 0 <= i < |cals| :: cals[i].Fetched? && cals[i].name == e.calendarName
    ensures forall i, e | 0 <= i < |cals| && cals[i].Fetched? && e in ParseAll(cals[i].resources, cals[i].name, md5) ::
              e in r
  {
    if |cals| == 0 then []
    else
      var rest := GetEvents(cals[1..], md5);
      assert forall e | e in rest :: exists i | 0 <= i < |cals| :: cals[i].Fetched? && cals[i].name == e.calendarName by {
        forall e | e in rest
          ensures exists i | 0 <= i < |cals| :: cals[i].Fetched? && cals[i].name == e.calendarName
        {
          var i :| 0 <= i < |cals[1..]| && cals[1..][i].Fetched? && cals[1..][i].name == e.calendarName;
          assert cals[i + 1] == cals[1..][i];
        }
      }
      assert forall i, e | 1 <= i < |cals| && cals[i].Fetched? && e in ParseAll(cals[i].resources, cals[i].name, md5) ::
               e in rest by {
        forall i, e | 1 <= i < |cals| && cals[i].Fetched? && e in ParseAll(cals[i].resources, cals[i].name, md5)
          ensures e in rest
        {
          assert cals[1..][i - 1] == cals[i];
        }
      }
      FromCalendar(cals[0], md5) + rest
  }

  /** Every fetched record is one of the parsed records of a calendar whose
      search succeeded: nothing enters the list from anywhere else. */
  lemma {:induction false} GetEventsSources(cals: seq<CalendarFetch>, md5: string -> string)
    ensures forall e | e in GetEvents(cals, md5) :: exists i | 0 <= i < |cals| ::
              cals[i].Fetched? && e in ParseAll(cals[i].resources, cals[i].name, md5)
  {
    if |cals| > 0 {
      GetEventsSources(cals[1..], md5);
      forall e | e in GetEvents(cals, md5)
        ensures exists i | 0 <= i < |cals| :: cals[i].Fetched? && e in ParseAll(cals[i].resources, cals[i].name, md5)
      {
        if e !in FromCalendar(cals[0], md5) {
          assert e in GetEvents(cals[1..], md5);
          var i :| 0 <= i < |cals[1..]| && cals[1..][i].Fetched?
                   && e in ParseAll(cals[1..][i].resources, cals[1..][i].name, md5);
          assert cals[i + 1] == cals[1..][i];
        }
      }
    }
  }

  /** A calendar whose search raised is indistinguishable, in the snapshot,
      from a calendar that holds no events. */
  lemma {:induction false} FailedCalendarLooksEmpty(cals: seq<CalendarFetch>, i: nat, md5: string -> string)
    requires i < |cals|
    requires cals[i].FetchFailed?
    ensures GetEvents(cals, md5) == GetEvents(cals[i := Fetched(cals[i].name, [])], md5)
  {
    var cals' := cals[i := Fetched(cals[i].name, [])];
    if i > 0 {
      assert cals'[1..] == cals[1..][i - 1 := Fetched(cals[i].name, [])];
      FailedCalendarLooksEmpty(cals[1..], i - 1, md5);
    } else {
      assert cals'[1..] == cals[1..];
    }
  }

  /** When every calendar's search raised, the snapshot is empty. */
  lemma {:induction false} AllFetchesFailed(cals: seq<CalendarFetch>, md5: string -> string)
    requires forall i | 0 <= i < |cals| :: cals[i].FetchFailed?
    ensures GetEvents(cals, md5) == []
  {
    if |cals| > 0 {
      AllFetchesFailed(cals[1..], md5);
    }
  }

  /** The search window `get_events` uses; instants are seconds. Without an
      end the window is a year of 365 days from the start. */
  function SearchWindow(start: int, end: Option<int>): (w: (int, int))
    ensures w.0 == start
    ensures end.None? ==> w.1 - w.0 == DefaultRangeDays * SecondsPerDay
    ensures end.Some? ==> w.1 == end.value
  {
    if end.None? then (start, start + DefaultRangeDays * SecondsPerDay) else (start, end.value)
  }
}

=== FILE: seqs.dfy ===
/** Sequences used as iteration orders over finite sets. */
module Seqs {

  /** No element occurs twice. */
  predicate Distinct<T(==)>(xs: seq<T>) {
    forall i, j | 0 <= i < j < |xs| :: xs[i] != xs[j]
  }

  /** `xs` lists every element of `s` exactly once: one possible iteration
      order of a Python `set`. */
  predicate Enumerates<T(==)>(xs: seq<T>, s: set<T>) {
    && Distinct(xs)
    && (forall x | x in xs :: x in s)
    && (forall x | x in s :: x in xs)
  }

  /** The tail of a duplicate-free sequence is duplicate-free and misses the head. */
  lemma DistinctTail<T>(xs: seq<T>)
    requires Distinct(xs)
    requires |xs| > 0
    ensures Distinct(xs[1..])
    ensures xs[0] !in xs[1..]
  {
  }

  /** The tail of an enumeration enumerates the set without its head. */
  lemma EnumeratesTail<T>(xs: seq<T>, s: set<T>)
    requires Enumerates(xs, s)
    requires |xs| > 0
    ensures xs[0] in s
    ensures Enumerates(xs[1..], s - {xs[0]})
  {
  }

  /** An enumeration has exactly as many positions as the set has elements. */
  lemma {:induction false} EnumerationSize<T>(xs: seq<T>, s: set<T>)
    requires Enumerates(xs, s)
    ensures |xs| == |s|
  {
    if |xs| > 0 {
      EnumeratesTail(xs, s);
      EnumerationSize(xs[1..], s - {xs[0]});
    }
  }
}

=== FILE: store.dfy ===
/** The persisted sync state of the engine (sync_engine.py): one record per
    mirrored iCloud event and the time of the last run. Only the rule for
    reading the state file is modelled; the JSON encoding is not. */
module Store {
  import opened Wrappers

  /** What the engine remembers about one mirrored event: the id of its
      Google copy and the fingerprint it had when last written. */
  datatype Record = Record(googleId: string, hash: string)

  /** The state file's contents: records keyed by iCloud uid, and the
      ISO 8601 time of the last run, if any. */
  datatype State = State(events: map<string, Record>, lastSync: Option<string>)

  /** The state file as the engine finds it at construction. */
  datatype StateFile = Absent | Unreadable | Stored(state: State)

  /** The summary `get_sync_status` reports. */
  datatype SyncStatus = SyncStatus(totalSyncedEvents: nat, lastSync: Option<string>)

  /** `_load_state`: the stored state, or a state without records and
      without a last run when the file is missing or does not parse. */
  function LoadState(f: StateFile): (s: State)
    ensures f.Stored? ==> s == f.state
    ensures !f.Stored? ==> s.events == map[] && s.lastSync.None?
  {
    match f
    case Stored(state) => state
    case _ => State(map[], None)
  }

  /** The file a successful `_save_state` leaves behind. */
  function SaveState(s: State): StateFile {
    Stored(s)
  }

  /** A saved state is loaded back unchanged. */
  lemma LoadAfterSave(s: State)
    ensures LoadState(SaveState(s)) == s
  {
  }

  /** `get_sync_status`: the number of mirrored events and the last run. */
  function Status(s: State): (st: SyncStatus)
    ensures st.totalSyncedEvents == |s.events|
    ensures st.lastSync == s.lastSync
  {
    SyncStatus(|s.events|, s.lastSync)
  }

  /** Without a readable state file the status shows no mirrored events and
      no last run. */
  lemma StatusWithoutStateFile(f: StateFile)
    requires !f.Stored?
    ensures Status(LoadState(f)) == SyncStatus(0, None)
  {
  }
}

=== FILE: wrappers.dfy ===
/** Failure-compatible wrappers shared by the whole model: `Option` for the
    values the source represents with `None`, `Result` for calls that can
    raise an exception instead of returning. */
module Wrappers {

  datatype Option<+T> = None | Some(value: T) {

    /** The wrapped value, or `default` when there is none (Python's `dict.get(key, default)`). */
    function GetOr(default: T): T {
      match this
      case Some(v) => v
      case None => default
    }
  }

  datatype Result<+R, +E> = Success(value: R) | Failure(error: E) {

    predicate IsFailure() {
      Failure?
    }

    function PropagateFailure<U>(): Result<U, E>
      requires Failure?
    {
      Failure(error)
    }

    function Extract(): R
      requires Success?
    {
      value
    }
  }
}
